=== FILE: README.md ===
# MEGA account generator: a Dafny model of its core

The program creates mega.nz accounts through a headless browser and a
throw-away mailbox, optionally uploads a file to each new account, and can
convert a text dump of saved credentials into JSON files. This project models
the parts of `main.py` that decide what happens, and proves properties of
them:

- **the upload gate** at the end of `register`: which sizes are uploaded,
  which are announced as exceeding the 5 GB transfer allowance, and which are
  reported as "File not found." (`upload_gate.dfy`, and the upload step in
  `registration.dfy`);
- **`archive_folder`**: the path a directory is replaced by once it is zipped
  (`archive_path.dfy`);
- **`convert_accounts`**: the dump is split on the 19-dash separator,
  non-blank chunks go through `parse_account` (three `re.search` captures),
  and each account is written under a file name built from its email
  (`accounts.dfy`);
- **the order of events** in `register`, in `loop_registrations`, and in the
  single-shot branch of the entry point (`registration.dfy`).

The Python string operations the core relies on are in `strings.dfy`:
`strip`, `rstrip`, `split` and substring search over `string`, plus `join`,
which the core does not call but which is the inverse that `split` is checked
against.

The browser, the mailbox, `clear_tmp`, `generate_mail`, `delete_default`,
`save_credentials` and `upload_file` are not modelled as code. Each call is an
event in a trace, `Did(step, credentials)` or a dedicated event. Which call
raises is a parameter (`Fault`): `clear_tmp`, `generate_mail`, any call of
`register`'s body, or `upload_file`. `getsize` raises when the `Disk` says the
upload path is missing. What `generate_mail` returns in iteration `i` is a
parameter `gen(i)`. The file system is a parameter `Disk`, made of
`os.path.isdir` and `os.path.getsize`. A run ends in one of three ways: it
returns, `sys.exit` ends the process, or an exception escapes.

Some behaviour of `main.py` that a reader might not expect, and that the model
keeps as written:

- **Missing upload file.** `register` calls `os.path.getsize` before
  `os.path.exists` (main.py:262-263), so a missing file raises
  `FileNotFoundError`. "File not found." is printed only for existing files of
  size 0 or at least 2e10 bytes. `UploadGate.DecideMatchesIntendedRule`
  compares this with the rule that reports a missing path and refuses sizes
  outside (0, 2e10): they agree on every existing file and differ only there.
- **Browser on failure.** `register` has no `try`/`finally`, so a call that
  raises before `browser.close()` leaves the browser open
  (`Registration.RegisterFailureStops`).
- **Directories in batch mode.** Only the single-shot branch zips a directory
  given as `--file` (main.py:299-301). The batch loop hands the directory path
  itself to `getsize` and to the upload (`Registration.LoopNeverArchives`).
- **Failures in batch mode.** An exception in any iteration ends the whole
  batch loop. Nothing is caught or retried (`Registration.LoopStopsAtFirstFailure`).
- **`--loop` of 1 or less.** `register` ends the process with `sys.exit(0)`
  after its first run unless `--loop` is above 1 (`Registration.LoopExitsAfterFirst`).

## Model

| member | source | states |
|---|---|---|
| UploadGate.Decide | main.py:261-271 | a missing file makes `getsize` raise; an existing file is uploaded exactly when 0 < size < 2e10, warned about exactly when 5e9 <= size < 2e10, and reported "File not found." exactly when size is 0 or at least 2e10 |
| UploadGate.DecideMatchesIntendedRule | main.py:261-271 | for existing files the decision equals the verdict of the rule "refuse sizes outside (0, 2e10), warn from 5e9 on, otherwise attempt" at every size; for a missing file that rule refuses while the code raises |
| UploadGate.DecideMonotone | main.py:263-264 | among positive sizes a larger file is never treated more leniently: once a size warns, every larger uploaded size warns, and once a size is refused every larger size is refused; size 0 is the exception, refused while size 1 is uploaded |
| ArchivePath.ArchiveFolder | main.py:148-157 | a non-directory path is returned unchanged; a directory path becomes its stem (the path without its trailing run of `/` and `\`) followed by `.zip` |
| ArchivePath.StemUnique | main.py:155 | a path has exactly one stem, so the archive name is determined by the path |
| ArchivePath.TrailingSeparatorsIgnored | main.py:155 | appending any run of separators to a directory path does not change its archive name |
| ArchivePath.NoSeparatorBeforeSuffix | main.py:155 | no separator precedes `.zip` in an archive name, and the name is bare `.zip` exactly when the path consists of separators only |
| Strings.RStrip | main.py:155 | `rstrip` returns a prefix of the text that does not end in a stripped character, after which only stripped characters follow |
| Strings.RStripUnique | main.py:155 | that characterisation has a single solution, the result of `rstrip` |
| Strings.LStrip | main.py:194 | `lstrip` returns a suffix that does not start with a stripped character, before which only stripped characters come |
| Strings.StripEmptyIff | main.py:194-195 | a chunk strips to the empty string, and is skipped, exactly when it consists of whitespace only |
| Strings.IndexFrom | main.py:190 | the search returns the first occurrence at or after the start, or None when there is none |
| Strings.Split | main.py:190 | `str.split` on a non-empty separator gives at least one piece; its content is stated by `Strings.SplitJoin` and `Strings.SplitPiecesAvoidSeparator` |
| Strings.Strip | main.py:194-197 | `strip` is `lstrip` after `rstrip`; characterised by `Strings.RStrip`, `Strings.LStrip` and `Strings.StripEmptyIff` |
| Strings.SplitJoin | main.py:190 | splitting the dump on the separator loses nothing: joining the pieces with the separator gives the dump back |
| Strings.SplitPiecesAvoidSeparator | main.py:190 | no piece of a split contains the separator |
| Accounts.FirstMatchFrom | main.py:166-168 | the scan returns the leftmost position where the label is followed by a character other than a newline, or None when there is none |
| Accounts.LineFrom | main.py:166-168 | the greedy `(.+)` takes the characters from the given position up to the next newline or the end of the text |
| Accounts.Search | main.py:166-168 | a capture exists exactly when the label is somewhere followed by a non-newline character; the capture is non-empty and holds no newline |
| Accounts.SearchCaptures | main.py:166-168 | what Search returns is the rest of the line after the leftmost matching label |
| Accounts.SearchIsLeftmostCapture | main.py:166-168 | Search returns `v` if and only if `v` is the rest of the line after the leftmost matching label, in both directions |
| Accounts.ParseAccount | main.py:165-177 | an account is returned exactly when all three labelled fields are present; each field is the leftmost capture for its label, non-empty and without newlines |
| Accounts.Before | main.py:200 | `split(c)[0]` is the longest prefix without `c`, followed by `c` or by the end |
| Accounts.BeforeUnique | main.py:200 | a prefix with that property is unique |
| Accounts.SplitEmail | main.py:200 | the two pieces exist exactly when the email contains `@` (otherwise indexing raises `IndexError`), and the local part is followed by `@` |
| Accounts.SplitEmailDecomposes | main.py:200 | the pieces are a local part without `@`, then `@`, then a domain label without `@` or `.` that ends at `.`, `@` or the end |
| Accounts.JsonFileName | main.py:200 | a file name exists exactly when the email contains `@` |
| Accounts.JsonFileNameShape | main.py:200 | the file name is a prefix of the email that contains its first `@`, followed by `.json` |
| Accounts.JsonFileNameFromParts | main.py:200 | any decomposition of the email into local part and first domain label determines the file name, so the name is unique |
| Accounts.ChunkAccount | main.py:193-197 | what one chunk of the dump contributes: nothing for a blank chunk, otherwise `parse_account` of its stripped text; see `Accounts.BlankSkipIsHarmless` and `Accounts.ParsedAreParsingChunks` |
| Accounts.BlankSkipIsHarmless | main.py:193-197 | skipping blank chunks loses no account: a chunk's contribution is always the parse of its stripped text |
| Accounts.WriteFiles | main.py:193-205 | the run completes exactly when every parsed account's email has `@`; the written files hold the parsed accounts in order, each under its email's file name; a crash happens at the first account without `@`, after the files for all accounts before it |
| Accounts.ConvertAccounts | main.py:183-205 | a missing input writes nothing; otherwise the files are the accounts of the non-blank chunks of the split dump, in order and named after their emails, or the run stops at the first email without `@` |
| Accounts.Found | main.py:197-198 | the `if account_data` filter keeps at most as many accounts as there are chunks; which ones is stated by `Accounts.FoundHoldsParsed` and `Accounts.FoundCountsAccounts` |
| Accounts.FoundHoldsParsed | main.py:197-198 | an account is among the converted ones exactly when some chunk parsed to it |
| Accounts.FoundCountsAccounts | main.py:197-205 | the accounts kept are exactly as many as the chunk results that hold an account |
| Accounts.ConvertedCount | main.py:190-205 | when the run completes, the reported count equals the number of chunks that are not blank and parse |
| Accounts.ParsedAreParsingChunks | main.py:190-198 | the chunk positions that yield an account are exactly the non-blank chunks whose stripped text parses |
| Accounts.ConvertedCountBound | main.py:190-205 | the number of converted accounts reported never exceeds the number of chunks |
| Registration.StepIndex | main.py:225-259 | each call of `register` has a position in the body's call sequence |
| Registration.StepIndexInverse | main.py:225-259 | each call appears exactly once in that sequence |
| Registration.UploadPhase | main.py:261-271 | without `--file` nothing happens; the step raises exactly when `getsize` finds no file (then with an empty trace) or `upload_file` is reached and fails; otherwise it returns; only warning, upload and not-found events occur |
| Registration.UploadFailureKeepsTrace | main.py:261-271 | a failing `upload_file` changes how the upload step ends but not which events it produced |
| Registration.UploadPhaseDecides | main.py:261-271 | the requested path is uploaded exactly for sizes in (0, 2e10); the warning comes exactly for [5e9, 2e10), right before the upload; "File not found." comes exactly for the other existing sizes; nothing else is uploaded |
| Registration.Register | main.py:223-273 | every event is a call or an upload-step event; the run raises exactly when a step fails, `getsize` finds no file, or `upload_file` is reached and fails; it returns normally exactly when it does not raise and `--loop` is above 1; an exit is always `sys.exit(0)` |
| Registration.RegisterUploadFails | main.py:261-273 | a failing `upload_file` leaves the events of `register` unchanged; the run raises exactly when the size check lets the upload through, and otherwise ends as a run without failure |
| Registration.CallsOnlyAt | main.py:225-259 | the calls of `register` make each step exactly once, at its position in the body |
| Registration.RegisterCallOrder | main.py:225-259 | a run without failure makes each call exactly once, at its position in the body |
| Registration.RegisterStepsInOrder | main.py:240-259 | in a run without failure every call precedes every later call: name, password, form, mail login, get mail, initial setup, browser close, delete default, save credentials |
| Registration.RegisterFailureStops | main.py:225-259 | when a call raises, exactly the calls up to it have happened: the browser is closed only if the failure comes at or after `browser.close()`, and nothing is uploaded |
| Registration.UploadEventInTrace | main.py:240-271 | an event other than one of the listed calls is in a run without failure exactly when the upload step produced it |
| Registration.RegisterUploadGate | main.py:258-271 | in a `register` run without failure, the upload happens exactly for sizes in (0, 2e10), the warning exactly for [5e9, 2e10), "File not found." for the other existing sizes |
| Registration.UploadAfterCalls | main.py:256-271 | behind the calls of `register`, the upload comes after the credentials are saved and the warning comes before the upload |
| Registration.RegisterUploadOrder | main.py:258-271 | within a whole `register` run, the upload comes only after the credentials are saved, and the warning before the upload |
| Registration.RegisterUploadsOnlyFile | main.py:261-269 | `register` uploads nothing but its `--file` |
| Registration.RegisteredStartsOnce | main.py:217-220 | once an identity is generated, the iteration has cleared the profile directory exactly once, as its first event |
| Registration.Iteration | main.py:216-220 | one pass of the loop body: `clear_tmp`, `generate_mail`, `register`, each of which may raise; see `Registration.IterationStartsOnce`, `Registration.IterationOutcome` and `Registration.IterationUploadsOnlyFile` |
| Registration.IterationStartsOnce | main.py:215-220 | every iteration starts by clearing the profile directory, and clears it only once |
| Registration.IterationOutcome | main.py:217-220 | an iteration raises exactly when `clear_tmp`, `generate_mail`, a step of `register`, `getsize` or a reached `upload_file` raises; it returns normally exactly when nothing raises and `--loop` is above 1; otherwise it ends the process with status 0 |
| Registration.LoopFrom | main.py:215-220 | the iterations from `i` up to the count, stopping at the first that does not return; see `Registration.LoopStartsAtMost`, `Registration.LoopFromRunsAll`, `Registration.LoopFailsHere` and `Registration.LoopPassesOn` |
| Registration.LoopRegistrations | main.py:213-220 | `loop_registrations` itself; see `Registration.LoopRunsExactly`, `Registration.LoopStopsAtFirstFailure`, `Registration.LoopExitsAfterFirst` and `Registration.LoopNeverArchives` |
| Registration.LoopStartsAtMost | main.py:213-220 | the loop begins at most one iteration per count, and exactly the count when it ends normally |
| Registration.LoopFromRunsAll | main.py:213-220 | without failures, iterations `i` to `n` run in order, each as clear, generate, register |
| Registration.LoopRunsExactly | main.py:213-220 | without failures `loop_registrations(n)` runs exactly `n` iterations in order and clears the profile directory `n` times |
| Registration.LoopStopsAtFirstFailure | main.py:215-220 | with the first failure in iteration `m`, exactly `m + 1` iterations begin and the loop raises |
| Registration.LoopFailsHere | main.py:215-220 | an iteration that raises is the last one the loop begins, and the loop raises |
| Registration.LoopPassesOn | main.py:215-220 | after an iteration that neither raises nor exits, the loop ends as the remaining iterations end, having begun one more iteration |
| Registration.LoopExitsAfterFirst | main.py:272-273 | with `--loop` at most 1 and a first iteration that does not raise, the process exits with status 0 after that iteration, whatever count the loop was given |
| Registration.LoopHasNoArchive | main.py:213-220 | no iteration from `i` on zips a directory |
| Registration.IterationUploadsOnlyFile | main.py:217-220 | an iteration of the loop uploads nothing but the `--file` path |
| Registration.LoopUploadsOnlyFile | main.py:213-220 | every upload the loop makes, in every iteration, is of the `--file` path |
| Registration.LoopNeverArchives | main.py:213-220 | the batch loop zips nothing, and every upload is of the `--file` path itself, so a directory reaches `getsize` and `upload_file` unchanged |
| Registration.SingleOptions | main.py:299-301 | in the single-shot branch, a non-empty `--file` naming a directory is replaced by its archive path; all other arguments are unchanged |
| Registration.RunSingle | main.py:295-304 | the single-shot branch starts by clearing the profile directory and never returns normally: it raises or exits |
| Registration.SingleTrace | main.py:295-304 | in a run without failure on a directory, the single-shot branch clears, generates, archives, then runs `register` on the archive path |
| Registration.SingleUploadsArchive | main.py:299-304 | in a run without failure of the single-shot branch a directory is zipped right after the identity is generated, and every upload is of the `.zip` archive |

## Left out

- The browser session, the mailbox and the web helpers (`type_name`, `type_password`, `finish_form`, `mail_login`, `get_mail`, `initial_setup`). They are foreign calls, modelled only as events and as the point where a fault may raise.
- The two `asyncio.sleep` waits (main.py:245, 249). They are modelled as the steps `WaitForMail` and `Settle`; time is not modelled.
- `clear_tmp`, `generate_mail`, `delete_default`, `save_credentials` and `upload_file`. They live in other files and are modelled as events that may raise; `generate_mail`'s result is the parameter `gen`.
- `setup` (main.py:117-145) and the configuration files. They are file-system and browser-discovery code outside the decision logic.
- The `--extract`, `--keepalive` and `--convert` dispatch, `check_for_updates` and `clear_console`. They belong to other services or only print.
- All console output (`p_print`) except the two messages that are decisions: the 5 GB warning (`Warned`) and "File not found." (`FileNotFoundReported`).
- The JSON layout written by `json.dump` and the output directory. The model records each file's name and the account it holds.
- Failures of file reads and writes, and of `shutil.make_archive`. The archive is assumed to be written; how `make_archive` names it on a path with trailing separators depends on the Python version and is not modelled.
- The float comparisons `0 < file_size < 2e10` and `file_size >= 5e9`. They are modelled as exact integer comparisons, which they are for every size Python's `getsize` can return, since both thresholds are exactly representable.
- Registration.LoopStopsAtFirstFailure: assumes `--loop` is above 1, the situation in which the entry point enters the loop (main.py:293); the loop's count and `--loop` are separate parameters of the model. With `--loop` at most 1, Registration.LoopExitsAfterFirst applies.
- Accounts.ConvertAccounts: the written files are modelled as the sequence of writes, not as the contents of the output directory. Two emails that give the same name (`a@b.com` and `a@b.org` both give `a@b.json`) make the later write replace the earlier file, so the directory can hold fewer files than the reported count. The input is the text `f.read()` returns; the universal-newline translation of text mode (every `\r\n` and lone `\r` of the file read as `\n`) is not modelled, so the model applies to a file after that translation.

=== FILE: accounts.dfy ===
/** `convert_accounts`: turning the `accounts.txt` credential dump into one JSON
    record per account. The file read and the JSON writes are left to the caller;
    the model says which records are produced, under which file names, and
    where a crash stops the run. */
module Accounts {
  import opened Strings

  /** The line of 19 dashes that separates two accounts in the dump. */
  const Separator: string := "-------------------"

  const EmailLabel: string := "Email: "
  const EmailPasswordLabel: string := "Email Password: "
  const MegaPasswordLabel: string := "Mega Password: "

  /** The pattern `key(.+)` can match at `i`: the key appears there and is
      followed by at least one character other than a newline (`.` does not
      match `\n`). */
  predicate MatchesAt(text: string, key: string, i: nat)
  {
    OccursAt(text, key, i) && i + |key| < |text| && text[i + |key|] != '\n'
  }

  /** The leftmost position at or after `from` where `key(.+)` matches. */
  function FirstMatchFrom(text: string, key: string, from: nat): (r: Option<nat>)
    ensures r.Some? ==> from <= r.value && MatchesAt(text, key, r.value)
    ensures r.Some? ==> forall j: nat :: from <= j < r.value ==> !MatchesAt(text, key, j)
    ensures r.None? ==> forall j: nat :: from <= j ==> !MatchesAt(text, key, j)
    decreases |text| - from
  {
    if from >= |text| then None
    else if MatchesAt(text, key, from) then Some(from)
    else FirstMatchFrom(text, key, from + 1)
  }

  /** The rest of the line from `k`: what the greedy `(.+)` consumes. */
  function LineFrom(text: string, k: nat): (r: string)
    requires k <= |text|
    ensures k + |r| <= |text| && text[k..k + |r|] == r
    ensures '\n' !in r
    ensures k + |r| == |text| || text[k + |r|] == '\n'
    decreases |text| - k
  {
    if k == |text| || text[k] == '\n' then []
    else
      var r := [text[k]] + LineFrom(text, k + 1);
      assert text[k..k + |r|] == [text[k]] + text[k + 1..k + |r|];
      r
  }

  /** `v` is group 1 of the leftmost match of `key(.+)` in `text`, and that
      match starts at `i`. */
  ghost predicate CaptureAt(text: string, key: string, i: nat, v: string)
  {
    && MatchesAt(text, key, i)
    && (forall j: nat :: j < i ==> !MatchesAt(text, key, j))
    && i + |key| + |v| <= |text|
    && text[i + |key|..i + |key| + |v|] == v
    && '\n' !in v
    && (i + |key| + |v| == |text| || text[i + |key| + |v|] == '\n')
  }

  /** `v` is the value of the first line of `text` that carries `key` with a value. */
  ghost predicate IsField(text: string, key: string, v: string)
  {
    exists i: nat :: CaptureAt(text, key, i, v)
  }

  /** `re.search(key + "(.+)", text)`, reduced to its group 1. */
  function Search(text: string, key: string): (r: Option<string>)
    ensures r.Some? <==> exists i: nat :: MatchesAt(text, key, i)
    ensures r.Some? ==> |r.value| > 0 && '\n' !in r.value
  {
    match FirstMatchFrom(text, key, 0)
    case None => None
    case Some(i) => Some(LineFrom(text, i + |key|))
  }

  /** What Search returns is the value of the leftmost matching line. */
  lemma SearchCaptures(text: string, key: string)
    ensures Search(text, key).Some? ==> IsField(text, key, Search(text, key).value)
  {
    match FirstMatchFrom(text, key, 0)
    case None =>
    case Some(i) =>
      assert CaptureAt(text, key, i, LineFrom(text, i + |key|));
  }

  /** A run of non-newline characters from `k` that ends at a newline or at the
      end of the text is the rest of the line. */
  lemma LineFromUnique(text: string, k: nat, v: string)
    requires k + |v| <= |text| && text[k..k + |v|] == v
    requires '\n' !in v
    requires k + |v| == |text| || text[k + |v|] == '\n'
    ensures v == LineFrom(text, k)
  {
  }

  /** Search returns exactly the leftmost capture: the two descriptions agree in
      both directions. */
  lemma SearchIsLeftmostCapture(text: string, key: string, v: string)
    ensures Search(text, key) == Some(v) <==> exists i: nat :: CaptureAt(text, key, i, v)
  {
    SearchCaptures(text, key);
    if exists i: nat :: CaptureAt(text, key, i, v) {
      var i: nat :| CaptureAt(text, key, i, v);
      CaptureIsSearch(text, key, i, v);
    }
  }

  /** A capture at `i` is what Search returns. */
  lemma CaptureIsSearch(text: string, key: string, i: nat, v: string)
    requires CaptureAt(text, key, i, v)
    ensures Search(text, key) == Some(v)
  {
    FirstMatchIsLeftmost(text, key, i);
    LineFromUnique(text, i + |key|, v);
    SearchAtFirst(text, key, i);
  }

  /** Search captures the rest of the line after the leftmost match. */
  lemma SearchAtFirst(text: string, key: string, i: nat)
    requires FirstMatchFrom(text, key, 0) == Some(i)
    ensures i + |key| <= |text| && Search(text, key) == Some(LineFrom(text, i + |key|))
  {
  }

  /** The leftmost match is the one FirstMatchFrom finds. */
  lemma FirstMatchIsLeftmost(text: string, key: string, i: nat)
    requires MatchesAt(text, key, i)
    requires forall j: nat :: j < i ==> !MatchesAt(text, key, j)
    ensures FirstMatchFrom(text, key, 0) == Some(i)
  {
    var first := FirstMatchFrom(text, key, 0);
    if first.Some? {
      assert !(first.value < i);
    }
  }

  /** The three values `parse_account` extracts. */
  datatype Account = Account(email: string, emailPassword: string, password: string)

  /** Some line of `text` carries `key` followed by a value. */
  ghost predicate HasField(text: string, key: string)
  {
    exists i: nat :: MatchesAt(text, key, i)
  }

  /** `parse_account`: None unless all three labelled fields are present. */
  function ParseAccount(text: string): (r: Option<Account>)
    ensures r.Some? <==>
      HasField(text, EmailLabel) && HasField(text, EmailPasswordLabel) && HasField(text, MegaPasswordLabel)
    ensures r.Some? ==>
      && IsField(text, EmailLabel, r.value.email)
      && IsField(text, EmailPasswordLabel, r.value.emailPassword)
      && IsField(text, MegaPasswordLabel, r.value.password)
    ensures r.Some? ==>
      && |r.value.email| > 0 && '\n' !in r.value.email
      && |r.value.emailPassword| > 0 && '\n' !in r.value.emailPassword
      && |r.value.password| > 0 && '\n' !in r.value.password
  {
    SearchCaptures(text, EmailLabel);
    SearchCaptures(text, EmailPasswordLabel);
    SearchCaptures(text, MegaPasswordLabel);
    var email := Search(text, EmailLabel);
    var emailPassword := Search(text, EmailPasswordLabel);
    var password := Search(text, MegaPasswordLabel);
    if email.Some? && emailPassword.Some? && password.Some? then
      Some(Account(email.value, emailPassword.value, password.value))
    else
      None
  }

  /** `s.split(c)[0]`: everything before the first `c`, or all of `s`. */
  function Before(s: string, c: char): (r: string)
    ensures r <= s && c !in r
    ensures |r| == |s| || s[|r|] == c
  {
    if |s| == 0 || s[0] == c then []
    else
      var r := [s[0]] + Before(s[1..], c);
      assert s[..|r|] == [s[0]] + s[1..][..|r| - 1];
      r
  }

  /** The characterisation of Before: a `c`-free prefix followed by `c` or by the end. */
  lemma BeforeUnique(s: string, c: char, r: string)
    requires r <= s && c !in r
    requires |r| == |s| || s[|r|] == c
    ensures r == Before(s, c)
  {
  }

  /** A `c`-free prefix of `s` is a prefix of what comes before the first `c`. */
  lemma BeforeCovers(s: string, c: char, t: string)
    requires t <= s && c !in t
    ensures t <= Before(s, c)
  {
  }

  /** `s.split(c)[1]`: the text between the first and the second `c`. */
  function SecondPiece(s: string, c: char): string
    requires c in s
  {
    var head := Before(s, c);
    Before(s[|head| + 1..], c)
  }

  /** `email` starts with `local@first`, where `local` has no `@`, `first` has
      neither `@` nor `.`, and the next character, if any, is `.` or `@`. */
  predicate NameParts(email: string, local: string, first: string)
  {
    && '@' !in local && '@' !in first && '.' !in first
    && |local| + 1 + |first| <= |email|
    && email[..|local|] == local && email[|local|] == '@'
    && email[|local| + 1..|local| + 1 + |first|] == first
    && (|local| + 1 + |first| == |email| || email[|local| + 1 + |first|] == '.' || email[|local| + 1 + |first|] == '@')
  }

  /** The two pieces line 200 takes from an email: the local part and the
      first label of the domain. */
  datatype EmailParts = EmailParts(local: string, first: string)

  /** `email.split('@')[0]` and `email.split('@')[1].split('.')[0]`; without an
      `@` the second indexing raises `IndexError`: None. */
  function SplitEmail(email: string): (r: Option<EmailParts>)
    ensures r.Some? <==> '@' in email
    ensures r.Some? ==> |r.value.local| < |email| && email[|r.value.local|] == '@'
  {
    if '@' !in email then None
    else Some(EmailParts(Before(email, '@'), Before(SecondPiece(email, '@'), '.')))
  }

  /** What SplitEmail returns is a decomposition of the email in the sense of
      NameParts. */
  lemma SplitEmailDecomposes(email: string)
    requires '@' in email
    ensures NameParts(email, SplitEmail(email).value.local, SplitEmail(email).value.first)
  {
    var local := Before(email, '@');
    var domain := SecondPiece(email, '@');
    var first := Before(domain, '.');
    assert email[|local| + 1..][..|domain|] == domain;
    assert email[|local| + 1..|local| + 1 + |first|] == first;
  }

  /** The output file name: the part of the email before its first `@`, then
      `@`, then the domain up to its first `.`, then `.json`. */
  function JsonFileName(email: string): (r: Option<string>)
    ensures r.Some? <==> '@' in email
  {
    match SplitEmail(email)
    case None => None
    case Some(parts) => Some(parts.local + "@" + parts.first + ".json")
  }

  /** A file name is a prefix of the email that contains its first `@`,
      followed by `.json`. */
  lemma JsonFileNameShape(email: string)
    requires '@' in email
    ensures var name := JsonFileName(email).value;
      && |name| > 5 && name[|name| - 5..] == ".json"
      && name[..|name| - 5] <= email
      && '@' in name[..|name| - 5]
  {
    SplitEmailDecomposes(email);
    var parts := SplitEmail(email).value;
    var stem := parts.local + "@" + parts.first;
    assert (stem + ".json")[..|stem|] == stem;
    assert stem[|parts.local|] == '@';
    assert email[..|stem|] == email[..|parts.local|] + [email[|parts.local|]] + email[|parts.local| + 1..|stem|];
  }

  /** Every decomposition of the email into local part and first domain label
      determines the file name: `JsonFileName` picks the only one there is. */
  lemma JsonFileNameFromParts(email: string, local: string, first: string)
    requires NameParts(email, local, first)
    ensures SplitEmail(email) == Some(EmailParts(local, first))
    ensures JsonFileName(email) == Some(local + "@" + first + ".json")
  {
    assert email[|local|] == '@';
    assert email[..|local|] == local;
    BeforeUnique(email, '@', local);
    var rest := email[|local| + 1..];
    assert rest[..|first|] == first;
    BeforeCovers(rest, '@', first);
    var domain := Before(rest, '@');
    assert domain[..|first|] == first;
    BeforeUnique(domain, '.', first);
  }

  /** A chunk `strip()` reduces to nothing. */
  predicate Blank(chunk: string)
  {
    Strip(chunk, Whitespace) == []
  }

  /** What one chunk of the dump contributes: nothing when it is blank, else
      the parse of its stripped text. */
  function ChunkAccount(chunk: string): Option<Account>
  {
    if Blank(chunk) then None else ParseAccount(Strip(chunk, Whitespace))
  }

  /** Skipping blank chunks loses no account: a blank chunk would not parse. */
  lemma BlankSkipIsHarmless(chunk: string)
    ensures ChunkAccount(chunk) == ParseAccount(Strip(chunk, Whitespace))
  {
  }

  /** The per-chunk results of the whole dump, in order. */
  function ParsedChunks(chunks: seq<string>): (r: seq<Option<Account>>)
    ensures |r| == |chunks|
    ensures forall i :: 0 <= i < |chunks| ==> r[i] == ChunkAccount(chunks[i])
  {
    seq(|chunks|, i requires 0 <= i < |chunks| => ChunkAccount(chunks[i]))
  }

  /** The accounts among the per-chunk results, in order. */
  function Found(parsed: seq<Option<Account>>): (r: seq<Account>)
    ensures |r| <= |parsed|
  {
    if |parsed| == 0 then []
    else
      match parsed[0]
      case None => Found(parsed[1..])
      case Some(a) => [a] + Found(parsed[1..])
  }

  /** Every account's email contains `@`. */
  predicate AllHaveAt(accounts: seq<Account>)
  {
    forall k :: 0 <= k < |accounts| ==> '@' in accounts[k].email
  }

  /** One written JSON file: its name and the record it holds. */
  datatype JsonFile = JsonFile(name: string, account: Account)

  /** How a conversion ends.
      InputMissing: `accounts.txt` does not exist; nothing is written.
      Converted(files): every write, in order; `|files|` is the count reported.
        Two emails can give one name (`a@b.com` and `a@b.org` both give
        `a@b.json`); the later write replaces the earlier file, so the
        directory can then hold fewer files than `|files|`.
      Crashed(written): an email without `@` raised `IndexError` after `written`. */
  datatype Conversion = InputMissing | Converted(files: seq<JsonFile>) | Crashed(written: seq<JsonFile>)

  /** `f` holds `a` under the name its email gives. */
  ghost predicate HoldsNamed(f: JsonFile, a: Account)
  {
    f.account == a && JsonFileName(a.email) == Some(f.name)
  }

  /** `files` hold the first `|files|` of `accounts`, each named after its email. */
  ghost predicate NamedAfter(files: seq<JsonFile>, accounts: seq<Account>)
  {
    && |files| <= |accounts|
    && forall k :: 0 <= k < |files| ==> HoldsNamed(files[k], accounts[k])
  }

  lemma NamedAfterCons(f: JsonFile, files: seq<JsonFile>, a: Account, accounts: seq<Account>)
    requires NamedAfter(files, accounts)
    requires HoldsNamed(f, a)
    ensures NamedAfter([f] + files, [a] + accounts)
  {
  }

  lemma AllHaveAtCons(a: Account, accounts: seq<Account>)
    ensures AllHaveAt([a] + accounts) <==> '@' in a.email && AllHaveAt(accounts)
  {
    var all := [a] + accounts;
    assert all[0] == a;
    if AllHaveAt(all) {
      forall k | 0 <= k < |accounts|
        ensures '@' in accounts[k].email
      {
        assert all[k + 1] == accounts[k];
      }
    }
    if '@' in a.email && AllHaveAt(accounts) {
      forall k | 0 <= k < |all|
        ensures '@' in all[k].email
      {
        if k > 0 {
          assert all[k] == accounts[k - 1];
        }
      }
    }
  }

  /** The write loop of `convert_accounts` over the per-chunk results: each
      account is written under its file name until an email without `@` raises. */
  function WriteFiles(parsed: seq<Option<Account>>): (r: Conversion)
    ensures !r.InputMissing?
    ensures r.Converted? <==> AllHaveAt(Found(parsed))
    ensures r.Converted? ==> NamedAfter(r.files, Found(parsed)) && |r.files| == |Found(parsed)|
    ensures r.Crashed? ==>
      && NamedAfter(r.written, Found(parsed))
      && |r.written| < |Found(parsed)|
      && '@' !in Found(parsed)[|r.written|].email
  {
    if |parsed| == 0 then Converted([])
    else
      var rest := WriteFiles(parsed[1..]);
      var later := Found(parsed[1..]);
      match parsed[0]
      case None =>
        assert Found(parsed) == later;
        rest
      case Some(a) =>
        assert Found(parsed) == [a] + later;
        AllHaveAtCons(a, later);
        match JsonFileName(a.email)
        case None => Crashed([])
        case Some(name) =>
          var f := JsonFile(name, a);
          match rest
          case Converted(files) =>
            NamedAfterCons(f, files, a, later);
            Converted([f] + files)
          case Crashed(written) =>
            NamedAfterCons(f, written, a, later);
            assert ([a] + later)[|written| + 1] == later[|written|];
            Crashed([f] + written)
  }

  /** `convert_accounts` on the text `f.read()` returns for `accounts.txt`
      (None when the file is absent): split on the separator, parse every
      non-blank chunk, write. The file is opened in text mode, so `input` is
      the text after universal-newline translation: every `\r\n` and every
      lone `\r` of the file is already `\n` here. */
  function ConvertAccounts(input: Option<string>): (r: Conversion)
    ensures r.InputMissing? <==> input.None?
    ensures input.Some? ==>
      var accounts := Found(ParsedChunks(Split(input.value, Separator)));
      && (r.Converted? <==> AllHaveAt(accounts))
      && (r.Converted? ==> NamedAfter(r.files, accounts) && |r.files| == |accounts|)
      && (r.Crashed? ==> NamedAfter(r.written, accounts) && '@' !in accounts[|r.written|].email)
  {
    match input
    case None => InputMissing
    case Some(content) => WriteFiles(ParsedChunks(Split(content, Separator)))
  }

  /** The positions of `parsed` that hold an account. */
  ghost function Parsed(parsed: seq<Option<Account>>): set<int>
  {
    set i | 0 <= i < |parsed| && parsed[i].Some?
  }

  /** Found on one more result: the account, if any, goes at the end. */
  lemma {:induction false} FoundAppend(parsed: seq<Option<Account>>, x: Option<Account>)
    ensures Found(parsed + [x]) == Found(parsed) + (if x.Some? then [x.value] else [])
    decreases |parsed|
  {
    if |parsed| == 0 {
      assert parsed + [x] == [x];
      assert [x][1..] == [];
    } else {
      assert (parsed + [x])[0] == parsed[0];
      assert (parsed + [x])[1..] == parsed[1..] + [x];
      FoundAppend(parsed[1..], x);
    }
  }

  /** Found keeps exactly the accounts, one per position that holds one. */
  lemma {:induction false} FoundCountsAccounts(parsed: seq<Option<Account>>)
    ensures |Found(parsed)| == |Parsed(parsed)|
    decreases |parsed|
  {
    if |parsed| > 0 {
      var n := |parsed| - 1;
      var init := parsed[..n];
      var x := parsed[n];
      assert parsed == init + [x];
      FoundCountsAccounts(init);
      FoundAppend(init, x);
      assert Parsed(parsed) == Parsed(init) + (if x.Some? then {n} else {}) by {
        forall i | i in Parsed(parsed) && i != n
          ensures i in Parsed(init)
        {
          assert init[i] == parsed[i];
        }
      }
      assert n !in Parsed(init);
    }
  }

  /** An account is found exactly when some chunk parsed to it. */
  lemma {:induction false} FoundHoldsParsed(parsed: seq<Option<Account>>, a: Account)
    ensures a in Found(parsed) <==> Some(a) in parsed
    decreases |parsed|
  {
    if |parsed| > 0 {
      FoundHoldsParsed(parsed[1..], a);
      assert parsed == [parsed[0]] + parsed[1..];
    }
  }

  /** The reported count is the number of chunks that are not blank and parse. */
  lemma ConvertedCount(content: string)
    ensures var chunks := Split(content, Separator);
      var r := ConvertAccounts(Some(content));
      r.Converted? ==>
        |r.files| == |set i | 0 <= i < |chunks| && !Blank(chunks[i]) && ParseAccount(Strip(chunks[i], Whitespace)).Some?|
  {
    var chunks := Split(content, Separator);
    FoundCountsAccounts(ParsedChunks(chunks));
    ParsedAreParsingChunks(chunks);
  }

  /** The positions holding an account are the non-blank chunks that parse. */
  lemma ParsedAreParsingChunks(chunks: seq<string>)
    ensures Parsed(ParsedChunks(chunks))
      == set i | 0 <= i < |chunks| && !Blank(chunks[i]) && ParseAccount(Strip(chunks[i], Whitespace)).Some?
  {
    var parsed := ParsedChunks(chunks);
    var parsing := set i | 0 <= i < |chunks| && !Blank(chunks[i]) && ParseAccount(Strip(chunks[i], Whitespace)).Some?;
    forall i | i in Parsed(parsed)
      ensures i in parsing
    {
      assert parsed[i] == ChunkAccount(chunks[i]);
    }
    forall i | i in parsing
      ensures i in Parsed(parsed)
    {
      assert parsed[i] == ChunkAccount(chunks[i]);
    }
  }

  /** The reported count never exceeds the number of chunks the dump splits into. */
  lemma ConvertedCountBound(content: string)
    ensures var r := ConvertAccounts(Some(content));
      r.Converted? ==> |r.files| <= |Split(content, Separator)|
  {
  }
}

=== FILE: archive_path.dfy ===
/** `archive_folder`: the path an upload uses once a directory has been zipped. */
module ArchivePath {
  import opened Strings

  /** The characters `rstrip("/\\")` removes. */
  const Separators: set<char> := {'/', '\\'}

  const ZipSuffix: string := ".zip"

  /** `stem` is `path` without its trailing run of separators. */
  predicate IsStemOf(stem: string, path: string)
  {
    && stem <= path
    && (stem == [] || stem[|stem| - 1] !in Separators)
    && AllIn(path[|stem|..], Separators)
  }

  /** `archive_folder(path)`, with `os.path.isdir(path)` given as `isDir`:
      a non-directory comes back unchanged; a directory becomes its stem
      followed by `.zip`. */
  function ArchiveFolder(path: string, isDir: bool): (r: string)
    ensures !isDir ==> r == path
    ensures isDir ==> |r| >= |ZipSuffix| && r[|r| - |ZipSuffix|..] == ZipSuffix
    ensures isDir ==> IsStemOf(r[..|r| - |ZipSuffix|], path)
  {
    if !isDir then path
    else
      var stem := RStrip(path, Separators);
      assert (stem + ZipSuffix)[..|stem|] == stem;
      stem + ZipSuffix
  }

  /** A path has exactly one stem. */
  lemma StemUnique(path: string, a: string, b: string)
    requires IsStemOf(a, path) && IsStemOf(b, path)
    ensures a == b
  {
    RStripUnique(path, Separators, a);
    RStripUnique(path, Separators, b);
  }

  /** The archive name ignores how many separators end the directory path:
      `dir`, `dir/` and `dir\\//` all archive to `dir.zip`. */
  lemma TrailingSeparatorsIgnored(path: string, tail: string)
    requires AllIn(tail, Separators)
    ensures ArchiveFolder(path + tail, true) == ArchiveFolder(path, true)
  {
    var stem := RStrip(path, Separators);
    var whole := path + tail;
    assert whole[|stem|..] == path[|stem|..] + tail;
    assert IsStemOf(stem, whole);
    RStripUnique(whole, Separators, stem);
  }

  /** The archive path never has a separator just before `.zip`, unless the
      whole directory path was separators (then it is just `.zip`). */
  lemma NoSeparatorBeforeSuffix(path: string)
    ensures var r := ArchiveFolder(path, true);
      |r| == |ZipSuffix| || r[|r| - |ZipSuffix| - 1] !in Separators
    ensures ArchiveFolder(path, true) == ZipSuffix <==> AllIn(path, Separators)
  {
    var r := ArchiveFolder(path, true);
    var stem := r[..|r| - |ZipSuffix|];
    assert IsStemOf(stem, path);
    if |r| > |ZipSuffix| {
      assert r[|r| - |ZipSuffix| - 1] == stem[|stem| - 1];
    }
  }
}

=== FILE: registration.dfy ===
/** `register`, `loop_registrations` and the single-shot branch of the entry
    point, as traces of the calls they make. The browser, the mailbox, the
    file system and the uploader are opaque: each call is an event, the file
    system is a pair of functions, and which call raises is a parameter. */
module Registration {
  import opened Strings
  import UploadGate
  import ArchivePath

  /** A generated identity (`Credentials` from the utilities). */
  datatype Credentials = Credentials(name: string, email: string, emailPassword: string, password: string)

  /** The calls `register` makes before its upload step. */
  datatype Step =
    | LaunchBrowser    // pyppeteer.launch, profile directory ./tmp
    | OpenPage         // incognito context and a new page
    | TypeName
    | TypePassword
    | FinishForm
    | MailLogin
    | WaitForMail      // asyncio.sleep(1.5)
    | GetMail
    | InitialSetup
    | Settle           // asyncio.sleep(0.5)
    | CloseBrowser
    | DeleteDefault
    | SaveCredentials

  /** The calls of `register` in the order its body makes them. */
  const RegisterSteps: seq<Step> :=
    [LaunchBrowser, OpenPage, TypeName, TypePassword, FinishForm, MailLogin,
     WaitForMail, GetMail, InitialSetup, Settle, CloseBrowser, DeleteDefault, SaveCredentials]

  /** Where a step sits in `register`. */
  function StepIndex(s: Step): (k: nat)
    ensures k < |RegisterSteps| && RegisterSteps[k] == s
  {
    match s
    case LaunchBrowser => 0
    case OpenPage => 1
    case TypeName => 2
    case TypePassword => 3
    case FinishForm => 4
    case MailLogin => 5
    case WaitForMail => 6
    case GetMail => 7
    case InitialSetup => 8
    case Settle => 9
    case CloseBrowser => 10
    case DeleteDefault => 11
    case SaveCredentials => 12
  }

  /** Each step occurs once in `RegisterSteps`. */
  lemma StepIndexInverse()
    ensures forall k :: 0 <= k < |RegisterSteps| ==> StepIndex(RegisterSteps[k]) == k
  {
  }

  /** What an observer of the run sees, in order. */
  datatype Event =
    | ClearTmp                                        // clear_tmp() was called
    | GenerateMail(made: Credentials)                 // generate_mail() returned
    | Archived(folder: string)                        // archive_folder zipped a directory
    | Did(step: Step, who: Credentials)               // a call of register's body was made
    | Warned                                          // the "larger than 5GB" warning
    | Uploaded(public: bool, path: string, who: Credentials)   // upload_file(...) was called
    | FileNotFoundReported                            // the "File not found." message

  /** Why a run stopped with an exception. */
  datatype Failure =
    | ClearTmpFailed
    | GenerateFailed
    | StepFailed(step: Step)
    | GetsizeFailed(path: string)
    | UploadFailed(path: string)

  /** How a run ends: it returns, `sys.exit` ends the process, or an exception escapes. */
  datatype Outcome = Returned | Exited(code: int) | Raised(failure: Failure)

  datatype Run = Run(trace: seq<Event>, outcome: Outcome)

  /** The command-line arguments `register` reads: `--file`, `--public`, `--loop`. */
  datatype Options = Options(file: Option<string>, public: bool, loop: Option<int>)

  /** The file system as the core sees it: `os.path.isdir` and `os.path.getsize`. */
  datatype Disk = Disk(isDir: string -> bool, stat: string -> UploadGate.FileStat)

  /** Which call of `register` raises: one of its steps, or `upload_file`
      (which raises only if it is reached). */
  datatype RegisterFault = CallFails(step: Step) | UploadFails

  /** Which call of one iteration raises, if any. */
  datatype Fault = NoFault | ClearTmpFails | GenerateFails | StepFails(step: Step) | UploadFileFails

  /** The events of making the calls `steps` for credentials `c`. */
  function Calls(steps: seq<Step>, c: Credentials): (t: seq<Event>)
    ensures |t| == |steps|
    ensures forall k :: 0 <= k < |steps| ==> t[k] == Did(steps[k], c)
  {
    if |steps| == 0 then [] else [Did(steps[0], c)] + Calls(steps[1..], c)
  }

  /** `register` ends with `sys.exit(0)` unless `--loop` asked for more than one run. */
  predicate ExitsAfterRegister(opts: Options)
  {
    opts.loop.None? || opts.loop.value <= 1
  }

  /** The getsize call on the upload path raises. */
  predicate GetsizeRaises(opts: Options, disk: Disk)
  {
    opts.file.Some? && disk.stat(opts.file.value).Missing?
  }

  /** The size check lets the upload through, so `upload_file` is called. */
  predicate UploadAttempted(opts: Options, disk: Disk)
  {
    && opts.file.Some?
    && disk.stat(opts.file.value).Present?
    && 0 < disk.stat(opts.file.value).size < UploadGate.LimitBytes
  }

  /** The events the upload step can produce. */
  predicate IsUploadEvent(e: Event)
  {
    e.Warned? || e.Uploaded? || e.FileNotFoundReported?
  }

  /** The upload step at the end of `register`; `uploadFails` says whether
      `upload_file` raises when it is called. */
  function UploadPhase(c: Credentials, opts: Options, disk: Disk, uploadFails: bool): (r: Run)
    ensures opts.file.None? ==> r == Run([], Returned)
    ensures r.outcome.Raised? <==> GetsizeRaises(opts, disk) || (uploadFails && UploadAttempted(opts, disk))
    ensures GetsizeRaises(opts, disk) ==> r.trace == [] && r.outcome == Raised(GetsizeFailed(opts.file.value))
    ensures uploadFails && UploadAttempted(opts, disk) ==> r.outcome == Raised(UploadFailed(opts.file.value))
    ensures !r.outcome.Raised? ==> r.outcome == Returned
    ensures forall k :: 0 <= k < |r.trace| ==> IsUploadEvent(r.trace[k])
  {
    match opts.file
    case None => Run([], Returned)
    case Some(path) =>
      match UploadGate.Decide(disk.stat(path))
      case GetsizeRaises => Run([], Raised(GetsizeFailed(path)))
      case ReportNotFound => Run([FileNotFoundReported], Returned)
      case Attempt(warn) =>
        Run((if warn then [Warned] else []) + [Uploaded(opts.public, path, c)],
            if uploadFails then Raised(UploadFailed(path)) else Returned)
  }

  /** A failing `upload_file` changes how the upload step ends, not what it did. */
  lemma UploadFailureKeepsTrace(c: Credentials, opts: Options, disk: Disk)
    ensures UploadPhase(c, opts, disk, true).trace == UploadPhase(c, opts, disk, false).trace
  {
  }

  /** The upload step uploads the requested path exactly for sizes in
      (0, 2e10), warns exactly for sizes in [5e9, 2e10) and then right before
      uploading, and reports "File not found." for the other existing sizes. */
  lemma UploadPhaseDecides(c: Credentials, opts: Options, disk: Disk, path: string)
    requires opts.file == Some(path)
    ensures var r := UploadPhase(c, opts, disk, false);
      var stat := disk.stat(path);
      && (Uploaded(opts.public, path, c) in r.trace <==> stat.Present? && 0 < stat.size < UploadGate.LimitBytes)
      && (Warned in r.trace <==> stat.Present? && UploadGate.WarnBytes <= stat.size < UploadGate.LimitBytes)
      && (FileNotFoundReported in r.trace <==> stat.Present? && (stat.size == 0 || UploadGate.LimitBytes <= stat.size))
      && (Warned in r.trace ==> r.trace == [Warned, Uploaded(opts.public, path, c)])
      && (Uploaded(opts.public, path, c) in r.trace && Warned !in r.trace ==> r.trace == [Uploaded(opts.public, path, c)])
      && (forall k :: 0 <= k < |r.trace| && r.trace[k].Uploaded? ==> r.trace[k] == Uploaded(opts.public, path, c))
  {
  }

  /** A run of `register` with `fault` raises: a failing step always does, a
      failing `upload_file` does when it is reached, and `getsize` does on a
      missing upload path. */
  predicate RegisterRaises(opts: Options, disk: Disk, fault: Option<RegisterFault>)
  {
    || GetsizeRaises(opts, disk)
    || (fault.Some? && fault.value.CallFails?)
    || (fault == Some(UploadFails) && UploadAttempted(opts, disk))
  }

  /** `register(credentials, ...)`; `fault` names the call that raises, if any. */
  function Register(c: Credentials, opts: Options, disk: Disk, fault: Option<RegisterFault>): (r: Run)
    ensures forall k :: 0 <= k < |r.trace| ==> r.trace[k].Did? || IsUploadEvent(r.trace[k])
    ensures r.outcome.Raised? <==> RegisterRaises(opts, disk, fault)
    ensures r.outcome.Returned? <==> !RegisterRaises(opts, disk, fault) && !ExitsAfterRegister(opts)
    ensures r.outcome.Exited? ==> r.outcome.code == 0
  {
    match fault
    case Some(CallFails(s)) =>
      Run(Calls(RegisterSteps[..StepIndex(s) + 1], c), Raised(StepFailed(s)))
    case _ =>
      var upload := UploadPhase(c, opts, disk, fault == Some(UploadFails));
      var outcome :=
        if upload.outcome.Raised? then upload.outcome
        else if ExitsAfterRegister(opts) then Exited(0)
        else Returned;
      Run(Calls(RegisterSteps, c) + upload.trace, outcome)
  }

  /** `e` occurs in `t` at position `k` and nowhere else. */
  ghost predicate OnlyAt(t: seq<Event>, e: Event, k: nat)
  {
    k < |t| && t[k] == e && forall j :: 0 <= j < |t| && t[j] == e ==> j == k
  }

  /** `a` and `b` each occur once in `t`, `a` first. */
  ghost predicate Precedes(t: seq<Event>, a: Event, b: Event)
  {
    exists i: nat, j: nat :: i < j && OnlyAt(t, a, i) && OnlyAt(t, b, j)
  }

  /** The events of a run of `register` in which nothing raises. */
  lemma RegisterTrace(c: Credentials, opts: Options, disk: Disk)
    ensures Register(c, opts, disk, None).trace == Calls(RegisterSteps, c) + UploadPhase(c, opts, disk, false).trace
  {
  }

  /** The listed calls make every step once, at its index. */
  lemma CallsOnlyAt(c: Credentials, s: Step)
    ensures OnlyAt(Calls(RegisterSteps, c), Did(s, c), StepIndex(s))
  {
    var t := Calls(RegisterSteps, c);
    StepIndexInverse();
    forall j | 0 <= j < |t| && t[j] == Did(s, c)
      ensures j == StepIndex(s)
    {
    }
  }

  /** A failing `upload_file` leaves the events of `register` as they are and
      changes only how it ends: it raises exactly when the upload is reached. */
  lemma RegisterUploadFails(c: Credentials, opts: Options, disk: Disk)
    ensures var r := Register(c, opts, disk, Some(UploadFails));
      var clean := Register(c, opts, disk, None);
      && r.trace == clean.trace
      && (UploadAttempted(opts, disk) ==> r.outcome == Raised(UploadFailed(opts.file.value)))
      && (!UploadAttempted(opts, disk) ==> r.outcome == clean.outcome)
  {
    UploadFailureKeepsTrace(c, opts, disk);
  }

  /** A run of `register` without failure makes every call once, in source order. */
  lemma RegisterCallOrder(c: Credentials, opts: Options, disk: Disk)
    ensures var t := Register(c, opts, disk, None).trace;
      forall s :: OnlyAt(t, Did(s, c), StepIndex(s))
  {
    var head := Calls(RegisterSteps, c);
    var tail := UploadPhase(c, opts, disk, false).trace;
    RegisterTrace(c, opts, disk);
    forall s
      ensures OnlyAt(head + tail, Did(s, c), StepIndex(s))
    {
      CallsOnlyAt(c, s);
      KeepOnlyAt(head, tail, Did(s, c), StepIndex(s));
    }
  }

  /** The calls of a run without failure happen in the order of
      `RegisterSteps`, each once: name, password, finish, mail login, get mail,
      initial setup; the browser is closed before the default artefacts are
      deleted, and those before the credentials are saved. */
  lemma RegisterStepsInOrder(c: Credentials, opts: Options, disk: Disk)
    ensures var t := Register(c, opts, disk, None).trace;
      forall a, b :: StepIndex(a) < StepIndex(b) ==> Precedes(t, Did(a, c), Did(b, c))
  {
    var t := Register(c, opts, disk, None).trace;
    RegisterCallOrder(c, opts, disk);
    forall a, b | StepIndex(a) < StepIndex(b)
      ensures Precedes(t, Did(a, c), Did(b, c))
    {
      assert OnlyAt(t, Did(a, c), StepIndex(a)) && OnlyAt(t, Did(b, c), StepIndex(b));
    }
  }

  /** A step is among the first `n` calls exactly when its index is below `n`. */
  lemma InFirstSteps(s: Step, n: nat)
    requires n <= |RegisterSteps|
    ensures s in RegisterSteps[..n] <==> StepIndex(s) < n
  {
    if s in RegisterSteps[..n] {
      var k :| 0 <= k < n && RegisterSteps[..n][k] == s;
      StepIndexInverse();
      assert StepIndex(RegisterSteps[k]) == k;
    }
    if StepIndex(s) < n {
      assert RegisterSteps[..n][StepIndex(s)] == s;
    }
  }

  /** The calls in a trace of calls are the listed steps. */
  lemma CallsHas(steps: seq<Step>, c: Credentials, s: Step)
    ensures Did(s, c) in Calls(steps, c) <==> s in steps
  {
    var t := Calls(steps, c);
    if Did(s, c) in t {
      var k :| 0 <= k < |t| && t[k] == Did(s, c);
      assert steps[k] == s;
    }
    if s in steps {
      var k :| 0 <= k < |steps| && steps[k] == s;
      assert t[k] == Did(s, c);
    }
  }

  /** When a call of `register` raises, exactly the calls up to it have
      happened: a failure before `browser.close()` leaves the browser open,
      the credentials are saved only if everything before succeeded, and
      nothing is uploaded. */
  lemma RegisterFailureStops(c: Credentials, opts: Options, disk: Disk, s: Step)
    ensures var r := Register(c, opts, disk, Some(CallFails(s)));
      && r.outcome == Raised(StepFailed(s))
      && (forall s' :: Did(s', c) in r.trace <==> StepIndex(s') <= StepIndex(s))
      && forall k :: 0 <= k < |r.trace| ==> r.trace[k].Did?
  {
    var n := StepIndex(s) + 1;
    var t := Register(c, opts, disk, Some(CallFails(s))).trace;
    assert t == Calls(RegisterSteps[..n], c);
    forall s'
      ensures Did(s', c) in t <==> StepIndex(s') <= StepIndex(s)
    {
      CallsHas(RegisterSteps[..n], c, s');
      InFirstSteps(s', n);
    }
  }

  /** An event other than a call is in a run without failure exactly when
      the upload step produced it. */
  lemma UploadEventInTrace(c: Credentials, opts: Options, disk: Disk, e: Event)
    requires !e.Did?
    ensures e in Register(c, opts, disk, None).trace <==> e in UploadPhase(c, opts, disk, false).trace
  {
    RegisterTrace(c, opts, disk);
  }

  /** In a run without failure, the upload is attempted exactly for sizes in
      (0, 2e10), the warning is issued exactly for sizes in [5e9, 2e10), and
      "File not found." is reported for the remaining existing sizes. */
  lemma RegisterUploadGate(c: Credentials, opts: Options, disk: Disk, path: string)
    requires opts.file == Some(path)
    ensures var t := Register(c, opts, disk, None).trace;
      var stat := disk.stat(path);
      && (Uploaded(opts.public, path, c) in t <==> stat.Present? && 0 < stat.size < UploadGate.LimitBytes)
      && (Warned in t <==> stat.Present? && UploadGate.WarnBytes <= stat.size < UploadGate.LimitBytes)
      && (FileNotFoundReported in t <==> stat.Present? && (stat.size == 0 || UploadGate.LimitBytes <= stat.size))
  {
    UploadPhaseDecides(c, opts, disk, path);
    UploadEventInTrace(c, opts, disk, Uploaded(opts.public, path, c));
    UploadEventInTrace(c, opts, disk, Warned);
    UploadEventInTrace(c, opts, disk, FileNotFoundReported);
  }

  /** Putting calls in front of a trace moves an event that is not a call by
      the number of calls, and keeps it unique. */
  lemma ShiftOnlyAt(head: seq<Event>, tail: seq<Event>, e: Event, j: nat)
    requires forall k :: 0 <= k < |head| ==> head[k].Did?
    requires !e.Did? && OnlyAt(tail, e, j)
    ensures OnlyAt(head + tail, e, |head| + j)
  {
    var t := head + tail;
    forall k | 0 <= k < |t| && t[k] == e
      ensures k == |head| + j
    {
      if k >= |head| {
        assert tail[k - |head|] == e;
      }
    }
  }

  /** A call that the listed calls make once stays unique when events that
      are not calls follow. */
  lemma KeepOnlyAt(head: seq<Event>, tail: seq<Event>, e: Event, j: nat)
    requires forall k :: 0 <= k < |tail| ==> !tail[k].Did?
    requires e.Did? && OnlyAt(head, e, j)
    ensures OnlyAt(head + tail, e, j)
  {
    var t := head + tail;
    forall k | 0 <= k < |t| && t[k] == e
      ensures k == j
    {
      if k < |head| {
        assert head[k] == e;
      }
    }
  }

  /** Two events occurring once each, the first before the second. */
  lemma PrecedesAt(t: seq<Event>, a: Event, b: Event, i: nat, j: nat)
    requires i < j && OnlyAt(t, a, i) && OnlyAt(t, b, j)
    ensures Precedes(t, a, b)
  {
  }

  /** The order of the upload events behind the listed calls. */
  lemma UploadAfterCalls(c: Credentials, opts: Options, disk: Disk, path: string)
    requires opts.file == Some(path)
    ensures var head := Calls(RegisterSteps, c);
      var tail := UploadPhase(c, opts, disk, false).trace;
      var up := Uploaded(opts.public, path, c);
      && (up in tail ==> Precedes(head + tail, Did(SaveCredentials, c), up))
      && (Warned in tail ==> Precedes(head + tail, Warned, up))
  {
    var head := Calls(RegisterSteps, c);
    var tail := UploadPhase(c, opts, disk, false).trace;
    var up := Uploaded(opts.public, path, c);
    var save := Did(SaveCredentials, c);
    UploadPhaseDecides(c, opts, disk, path);
    if up in tail {
      CallsOnlyAt(c, SaveCredentials);
      KeepOnlyAt(head, tail, save, 12);
      var j := |tail| - 1;
      if Warned in tail {
        assert OnlyAt(tail, Warned, 0) && OnlyAt(tail, up, 1);
        ShiftOnlyAt(head, tail, Warned, 0);
        PrecedesAt(head + tail, Warned, up, |head|, |head| + 1);
      } else {
        assert OnlyAt(tail, up, 0);
      }
      ShiftOnlyAt(head, tail, up, j);
      PrecedesAt(head + tail, save, up, 12, |head| + j);
    }
  }

  /** In a run without failure, the upload comes after the credentials are
      saved, and the warning, when there is one, comes before the upload. */
  lemma RegisterUploadOrder(c: Credentials, opts: Options, disk: Disk, path: string)
    requires opts.file == Some(path)
    ensures var t := Register(c, opts, disk, None).trace;
      var up := Uploaded(opts.public, path, c);
      && (up in t ==> Precedes(t, Did(SaveCredentials, c), up))
      && (Warned in t ==> Precedes(t, Warned, up))
  {
    RegisterTrace(c, opts, disk);
    UploadEventInTrace(c, opts, disk, Uploaded(opts.public, path, c));
    UploadEventInTrace(c, opts, disk, Warned);
    UploadAfterCalls(c, opts, disk, path);
  }

  /** Iterations `i` to `n` of `loop_registrations` still to run. */
  function Remaining(i: nat, n: int): nat
  {
    if n > i then n - i else 0
  }

  /** An iteration whose `generate_mail` returned `c` and whose call of
      `register` went as `reg`. */
  function Registered(c: Credentials, reg: Run): Run
  {
    Run([ClearTmp, GenerateMail(c)] + reg.trace, reg.outcome)
  }

  /** One iteration of the loop: clear the profile directory, generate an
      identity, register it. */
  function Iteration(i: nat, gen: nat -> Credentials, opts: Options, disk: Disk, fault: Fault): Run
  {
    match fault
    case ClearTmpFails => Run([ClearTmp], Raised(ClearTmpFailed))
    case GenerateFails => Run([ClearTmp], Raised(GenerateFailed))
    case NoFault => Registered(gen(i), Register(gen(i), opts, disk, None))
    case StepFails(s) => Registered(gen(i), Register(gen(i), opts, disk, Some(CallFails(s))))
    case UploadFileFails => Registered(gen(i), Register(gen(i), opts, disk, Some(UploadFails)))
  }

  /** An iteration with `f` raises: `clear_tmp`, `generate_mail` or a step
      always does when it fails, `upload_file` when it is reached, and
      `getsize` on a missing upload path. */
  predicate IterationRaises(opts: Options, disk: Disk, f: Fault)
  {
    match f
    case NoFault => RegisterRaises(opts, disk, None)
    case UploadFileFails => RegisterRaises(opts, disk, Some(UploadFails))
    case _ => true
  }

  /** `loop_registrations` from iteration `i` on; `gen(i)` is what
      `generate_mail` returns in iteration `i`, `faults(i)` what raises there.
      The loop stops early when an iteration raises or exits. */
  function LoopFrom(i: nat, n: int, gen: nat -> Credentials, opts: Options, disk: Disk, faults: nat -> Fault): Run
    decreases Remaining(i, n)
  {
    if n <= i then Run([], Returned)
    else
      var it := Iteration(i, gen, opts, disk, faults(i));
      if !it.outcome.Returned? then it
      else
        var rest := LoopFrom(i + 1, n, gen, opts, disk, faults);
        Run(it.trace + rest.trace, rest.outcome)
  }

  /** `loop_registrations(n, ...)`. */
  function LoopRegistrations(n: int, gen: nat -> Credentials, opts: Options, disk: Disk, faults: nat -> Fault): Run
  {
    LoopFrom(0, n, gen, opts, disk, faults)
  }

  /** How many iterations began in `t`: the number of `clear_tmp()` calls. */
  function Starts(t: seq<Event>): nat
  {
    if |t| == 0 then 0 else (if t[0].ClearTmp? then 1 else 0) + Starts(t[1..])
  }

  lemma {:induction false} StartsConcat(a: seq<Event>, b: seq<Event>)
    ensures Starts(a + b) == Starts(a) + Starts(b)
    decreases |a|
  {
    if |a| == 0 {
      assert a + b == b;
    } else {
      assert (a + b)[0] == a[0];
      assert (a + b)[1..] == a[1..] + b;
      StartsConcat(a[1..], b);
    }
  }

  lemma {:induction false} StartsNone(t: seq<Event>)
    requires forall k :: 0 <= k < |t| ==> !t[k].ClearTmp?
    ensures Starts(t) == 0
    decreases |t|
  {
    if |t| > 0 {
      StartsNone(t[1..]);
    }
  }

  /** Once an identity is generated, the iteration has cleared the profile
      directory exactly once, as its first event. */
  lemma RegisteredStartsOnce(c: Credentials, reg: Run)
    requires forall k :: 0 <= k < |reg.trace| ==> !reg.trace[k].ClearTmp?
    ensures var t := Registered(c, reg).trace;
      |t| > 0 && t[0] == ClearTmp && Starts(t) == 1
  {
    var t := Registered(c, reg).trace;
    StartsNone(reg.trace);
    assert t[1..][1..] == reg.trace;
  }

  /** An iteration clears the profile directory first, and only once. */
  lemma IterationStartsOnce(i: nat, gen: nat -> Credentials, opts: Options, disk: Disk, f: Fault)
    ensures var t := Iteration(i, gen, opts, disk, f).trace;
      |t| > 0 && t[0] == ClearTmp && Starts(t) == 1
  {
    match f
    case ClearTmpFails =>
    case GenerateFails =>
    case NoFault => RegisteredStartsOnce(gen(i), Register(gen(i), opts, disk, None));
    case StepFails(s) => RegisteredStartsOnce(gen(i), Register(gen(i), opts, disk, Some(CallFails(s))));
    case UploadFileFails => RegisteredStartsOnce(gen(i), Register(gen(i), opts, disk, Some(UploadFails)));
  }

  /** An iteration raises exactly when one of its calls raises, ends normally
      exactly when nothing raises and `register` does not exit, and otherwise
      ends the process with status 0. */
  lemma IterationOutcome(i: nat, gen: nat -> Credentials, opts: Options, disk: Disk, f: Fault)
    ensures var r := Iteration(i, gen, opts, disk, f);
      && (r.outcome.Raised? <==> IterationRaises(opts, disk, f))
      && (r.outcome.Returned? <==> !IterationRaises(opts, disk, f) && !ExitsAfterRegister(opts))
      && (!IterationRaises(opts, disk, f) && ExitsAfterRegister(opts) ==> r.outcome == Exited(0))
  {
  }

  /** The loop begins at most one iteration per count still to run, and
      exactly that many when it ends normally. */
  lemma {:induction false} LoopStartsAtMost(i: nat, n: int, gen: nat -> Credentials, opts: Options, disk: Disk, faults: nat -> Fault)
    ensures var r := LoopFrom(i, n, gen, opts, disk, faults);
      && Starts(r.trace) <= Remaining(i, n)
      && (r.outcome.Returned? ==> Starts(r.trace) == Remaining(i, n))
    decreases Remaining(i, n)
  {
    if i < n {
      var it := Iteration(i, gen, opts, disk, faults(i));
      IterationStartsOnce(i, gen, opts, disk, faults(i));
      if it.outcome.Returned? {
        var rest := LoopFrom(i + 1, n, gen, opts, disk, faults);
        LoopStartsAtMost(i + 1, n, gen, opts, disk, faults);
        StartsConcat(it.trace, rest.trace);
      }
    }
  }

  /** The events of a successful iteration `k`. */
  function Block(k: nat, gen: nat -> Credentials, opts: Options, disk: Disk): seq<Event>
  {
    [ClearTmp, GenerateMail(gen(k))] + Register(gen(k), opts, disk, None).trace
  }

  function Flatten(blocks: seq<seq<Event>>): seq<Event>
  {
    if |blocks| == 0 then [] else blocks[0] + Flatten(blocks[1..])
  }

  /** The blocks of iterations `i` to `n`, in order. */
  function Blocks(i: nat, n: int, gen: nat -> Credentials, opts: Options, disk: Disk): (bs: seq<seq<Event>>)
    ensures |bs| == Remaining(i, n)
    ensures forall k :: 0 <= k < |bs| ==> bs[k] == Block(i + k, gen, opts, disk)
  {
    seq(Remaining(i, n), k requires 0 <= k < Remaining(i, n) => Block(i + k, gen, opts, disk))
  }

  /** When nothing raises and `--loop` asked for more than one run (as the entry
      point guarantees before calling the loop), iterations `i` to `n` all run,
      each one clearing the profile directory, then generating an identity,
      then registering that identity. */
  lemma {:induction false} LoopFromRunsAll(i: nat, n: int, gen: nat -> Credentials, opts: Options, disk: Disk, faults: nat -> Fault)
    requires forall k: nat :: i <= k < n ==> faults(k) == NoFault
    requires !ExitsAfterRegister(opts) && !GetsizeRaises(opts, disk)
    ensures var r := LoopFrom(i, n, gen, opts, disk, faults);
      r.outcome == Returned && r.trace == Flatten(Blocks(i, n, gen, opts, disk))
    decreases Remaining(i, n)
  {
    if i < n {
      IterationOutcome(i, gen, opts, disk, NoFault);
      LoopFromRunsAll(i + 1, n, gen, opts, disk, faults);
      var bs := Blocks(i, n, gen, opts, disk);
      assert bs[1..] == Blocks(i + 1, n, gen, opts, disk);
    }
  }

  /** `loop_registrations(n)` without failures runs exactly `n` iterations, in
      the shape LoopFromRunsAll gives, and clears the profile directory `n` times. */
  lemma LoopRunsExactly(n: int, gen: nat -> Credentials, opts: Options, disk: Disk, faults: nat -> Fault)
    requires forall k: nat :: k < n ==> faults(k) == NoFault
    requires !ExitsAfterRegister(opts) && !GetsizeRaises(opts, disk)
    ensures var r := LoopRegistrations(n, gen, opts, disk, faults);
      && r.outcome == Returned
      && Starts(r.trace) == Remaining(0, n)
      && r.trace == Flatten(Blocks(0, n, gen, opts, disk))
  {
    LoopFromRunsAll(0, n, gen, opts, disk, faults);
    LoopStartsAtMost(0, n, gen, opts, disk, faults);
  }

  /** An iteration that raises ends the whole loop: with the first failure in
      iteration `m`, exactly `m + 1` iterations start and the loop raises. */
  lemma LoopStopsAtFirstFailure(i: nat, m: nat, n: int, gen: nat -> Credentials, opts: Options, disk: Disk, faults: nat -> Fault)
    requires i <= m < n
    requires IterationRaises(opts, disk, faults(m))
    requires forall k: nat :: i <= k < m ==> !IterationRaises(opts, disk, faults(k))
    requires !ExitsAfterRegister(opts)
    ensures var r := LoopFrom(i, n, gen, opts, disk, faults);
      r.outcome.Raised? && Starts(r.trace) == m + 1 - i
  {
    NoneRaiseBetween(i, m, opts, disk, faults);
    LoopRaisesAtFailure(i, m, n, gen, opts, disk, faults);
    LoopStartsUpToFailure(i, m, n, gen, opts, disk, faults);
  }

  /** No iteration from `i` up to `m` (exclusive) raises. */
  predicate NoneRaise(i: nat, m: nat, opts: Options, disk: Disk, faults: nat -> Fault)
    decreases m - i
  {
    i >= m || (!IterationRaises(opts, disk, faults(i)) && NoneRaise(i + 1, m, opts, disk, faults))
  }

  lemma {:induction false} NoneRaiseBetween(i: nat, m: nat, opts: Options, disk: Disk, faults: nat -> Fault)
    requires forall k: nat :: i <= k < m ==> !IterationRaises(opts, disk, faults(k))
    ensures NoneRaise(i, m, opts, disk, faults)
    decreases m - i
  {
    if i < m {
      NoneRaiseBetween(i + 1, m, opts, disk, faults);
    }
  }

  lemma {:induction false} LoopRaisesAtFailure(i: nat, m: nat, n: int, gen: nat -> Credentials, opts: Options, disk: Disk, faults: nat -> Fault)
    requires i <= m < n
    requires IterationRaises(opts, disk, faults(m))
    requires NoneRaise(i, m, opts, disk, faults)
    requires !ExitsAfterRegister(opts)
    ensures LoopFrom(i, n, gen, opts, disk, faults).outcome.Raised?
    decreases m - i
  {
    if i == m {
      LoopFailsHere(i, n, gen, opts, disk, faults);
    } else {
      LoopPassesOn(i, n, gen, opts, disk, faults);
      LoopRaisesAtFailure(i + 1, m, n, gen, opts, disk, faults);
    }
  }

  lemma {:induction false} LoopStartsUpToFailure(i: nat, m: nat, n: int, gen: nat -> Credentials, opts: Options, disk: Disk, faults: nat -> Fault)
    requires i <= m < n
    requires IterationRaises(opts, disk, faults(m))
    requires NoneRaise(i, m, opts, disk, faults)
    requires !ExitsAfterRegister(opts)
    ensures Starts(LoopFrom(i, n, gen, opts, disk, faults).trace) == m + 1 - i
    decreases m - i
  {
    if i == m {
      LoopFailsHere(i, n, gen, opts, disk, faults);
    } else {
      LoopPassesOn(i, n, gen, opts, disk, faults);
      LoopStartsUpToFailure(i + 1, m, n, gen, opts, disk, faults);
    }
  }

  /** A raising iteration is the last one the loop starts. */
  lemma LoopFailsHere(i: nat, n: int, gen: nat -> Credentials, opts: Options, disk: Disk, faults: nat -> Fault)
    requires i < n && IterationRaises(opts, disk, faults(i))
    ensures var r := LoopFrom(i, n, gen, opts, disk, faults);
      r.outcome.Raised? && Starts(r.trace) == 1
  {
    IterationOutcome(i, gen, opts, disk, faults(i));
    IterationStartsOnce(i, gen, opts, disk, faults(i));
  }

  /** After an iteration without failure or exit, the loop goes on with the
      next one, having started one iteration more. */
  lemma LoopPassesOn(i: nat, n: int, gen: nat -> Credentials, opts: Options, disk: Disk, faults: nat -> Fault)
    requires i < n && !IterationRaises(opts, disk, faults(i))
    requires !ExitsAfterRegister(opts)
    ensures var r := LoopFrom(i, n, gen, opts, disk, faults);
      var rest := LoopFrom(i + 1, n, gen, opts, disk, faults);
      r.outcome == rest.outcome && Starts(r.trace) == 1 + Starts(rest.trace)
  {
    var it := Iteration(i, gen, opts, disk, faults(i));
    var rest := LoopFrom(i + 1, n, gen, opts, disk, faults);
    IterationOutcome(i, gen, opts, disk, faults(i));
    IterationStartsOnce(i, gen, opts, disk, faults(i));
    StartsConcat(it.trace, rest.trace);
  }

  /** Without `--loop` above one, `register` exits the process after the first
      iteration, whatever count the loop was given. */
  lemma LoopExitsAfterFirst(n: int, gen: nat -> Credentials, opts: Options, disk: Disk, faults: nat -> Fault)
    requires n >= 1 && !IterationRaises(opts, disk, faults(0))
    requires ExitsAfterRegister(opts)
    ensures var r := LoopRegistrations(n, gen, opts, disk, faults);
      r.outcome == Exited(0) && Starts(r.trace) == 1
  {
    IterationOutcome(0, gen, opts, disk, faults(0));
    IterationStartsOnce(0, gen, opts, disk, faults(0));
  }

  /** No event of `t` is the zipping of a directory. */
  predicate NoArchive(t: seq<Event>)
  {
    forall k :: 0 <= k < |t| ==> !t[k].Archived?
  }

  lemma NoArchiveConcat(a: seq<Event>, b: seq<Event>)
    requires NoArchive(a) && NoArchive(b)
    ensures NoArchive(a + b)
  {
  }

  lemma IterationNoArchive(i: nat, gen: nat -> Credentials, opts: Options, disk: Disk, f: Fault)
    ensures NoArchive(Iteration(i, gen, opts, disk, f).trace)
  {
  }

  lemma {:induction false} LoopHasNoArchive(i: nat, n: int, gen: nat -> Credentials, opts: Options, disk: Disk, faults: nat -> Fault)
    ensures NoArchive(LoopFrom(i, n, gen, opts, disk, faults).trace)
    decreases Remaining(i, n)
  {
    if i < n {
      var it := Iteration(i, gen, opts, disk, faults(i));
      IterationNoArchive(i, gen, opts, disk, faults(i));
      if it.outcome.Returned? {
        LoopHasNoArchive(i + 1, n, gen, opts, disk, faults);
        NoArchiveConcat(it.trace, LoopFrom(i + 1, n, gen, opts, disk, faults).trace);
      }
    }
  }

  /** The single-shot branch zips `--file` when it names a directory. */
  predicate ArchivesFile(opts: Options, disk: Disk)
  {
    opts.file.Some? && opts.file.value != "" && disk.isDir(opts.file.value)
  }

  /** The arguments `register` sees in the single-shot branch: a directory
      given as `--file` has been replaced by the path of its archive. */
  function SingleOptions(opts: Options, disk: Disk): (o: Options)
    ensures o.public == opts.public && o.loop == opts.loop
    ensures !ArchivesFile(opts, disk) ==> o == opts
    ensures ArchivesFile(opts, disk) ==> o.file == Some(ArchivePath.ArchiveFolder(opts.file.value, true))
  {
    if ArchivesFile(opts, disk) then opts.(file := Some(ArchivePath.ArchiveFolder(opts.file.value, true)))
    else opts
  }

  /** The single-shot branch once `generate_mail` returned `c` and the call
      of `register` went as `reg`. */
  function SingleRegistered(c: Credentials, opts: Options, disk: Disk, reg: Run): Run
  {
    var archived := if ArchivesFile(opts, disk) then [Archived(opts.file.value)] else [];
    Run([ClearTmp, GenerateMail(c)] + archived + reg.trace, reg.outcome)
  }

  /** The single-shot branch of the entry point (no `--loop` above one): clear
      the profile directory, generate an identity, zip a directory given as
      `--file`, then register. It never returns normally: either something
      raises or `register` ends the process. */
  function RunSingle(c: Credentials, opts: Options, disk: Disk, fault: Fault): (r: Run)
    requires ExitsAfterRegister(opts)
    ensures |r.trace| >= 1 && r.trace[0] == ClearTmp
    ensures !r.outcome.Returned?
  {
    match fault
    case ClearTmpFails => Run([ClearTmp], Raised(ClearTmpFailed))
    case GenerateFails => Run([ClearTmp], Raised(GenerateFailed))
    case NoFault => SingleRegistered(c, opts, disk, Register(c, SingleOptions(opts, disk), disk, None))
    case StepFails(s) => SingleRegistered(c, opts, disk, Register(c, SingleOptions(opts, disk), disk, Some(CallFails(s))))
    case UploadFileFails => SingleRegistered(c, opts, disk, Register(c, SingleOptions(opts, disk), disk, Some(UploadFails)))
  }

  /** Every upload in `t` is of `path`. */
  predicate UploadsOnly(t: seq<Event>, path: string)
  {
    forall k :: 0 <= k < |t| && t[k].Uploaded? ==> t[k].path == path
  }

  lemma UploadsOnlyConcat(a: seq<Event>, b: seq<Event>, path: string)
    requires UploadsOnly(a, path) && UploadsOnly(b, path)
    ensures UploadsOnly(a + b, path)
  {
  }

  /** `register` uploads nothing but its `--file`. */
  lemma RegisterUploadsOnlyFile(c: Credentials, opts: Options, disk: Disk, fault: Option<RegisterFault>, path: string)
    requires opts.file == Some(path)
    ensures UploadsOnly(Register(c, opts, disk, fault).trace, path)
  {
    if !(fault.Some? && fault.value.CallFails?) {
      RegisterTrace(c, opts, disk);
      RegisterUploadFails(c, opts, disk);
      UploadPhaseDecides(c, opts, disk, path);
      UploadsOnlyConcat(Calls(RegisterSteps, c), UploadPhase(c, opts, disk, false).trace, path);
    }
  }

  /** The single-shot branch on a directory: the archiving comes right after
      the identity is generated, then `register` runs on the archive path. */
  lemma SingleTrace(c: Credentials, opts: Options, disk: Disk, dir: string)
    requires ExitsAfterRegister(opts)
    requires opts.file == Some(dir) && dir != "" && disk.isDir(dir)
    ensures var reg := Register(c, opts.(file := Some(ArchivePath.ArchiveFolder(dir, true))), disk, None);
      RunSingle(c, opts, disk, NoFault).trace == [ClearTmp, GenerateMail(c), Archived(dir)] + reg.trace
  {
    assert ArchivesFile(opts, disk);
    assert SingleOptions(opts, disk) == opts.(file := Some(ArchivePath.ArchiveFolder(dir, true)));
  }

  /** In the single-shot branch a directory given as `--file` is zipped right
      after the identity is generated, and the upload, if any, is of the
      `.zip` archive rather than of the directory. */
  lemma SingleUploadsArchive(c: Credentials, opts: Options, disk: Disk, dir: string)
    requires ExitsAfterRegister(opts)
    requires opts.file == Some(dir) && dir != "" && disk.isDir(dir)
    ensures var r := RunSingle(c, opts, disk, NoFault);
      var zip := ArchivePath.ArchiveFolder(dir, true);
      && r.trace[2] == Archived(dir)
      && UploadsOnly(r.trace, zip)
      && zip[|zip| - 4..] == ".zip"
  {
    var zip := ArchivePath.ArchiveFolder(dir, true);
    var opts' := opts.(file := Some(zip));
    SingleTrace(c, opts, disk, dir);
    RegisterUploadsOnlyFile(c, opts', disk, None, zip);
    UploadsOnlyConcat([ClearTmp, GenerateMail(c), Archived(dir)], Register(c, opts', disk, None).trace, zip);
  }

  /** An iteration uploads nothing but the `--file` path. */
  lemma IterationUploadsOnlyFile(i: nat, gen: nat -> Credentials, opts: Options, disk: Disk, f: Fault, path: string)
    requires opts.file == Some(path)
    ensures UploadsOnly(Iteration(i, gen, opts, disk, f).trace, path)
  {
    var fault := match f
      case StepFails(s) => Some(CallFails(s))
      case UploadFileFails => Some(UploadFails)
      case _ => None;
    RegisterUploadsOnlyFile(gen(i), opts, disk, fault, path);
    UploadsOnlyConcat([ClearTmp, GenerateMail(gen(i))], Register(gen(i), opts, disk, fault).trace, path);
  }

  /** Every upload the loop makes from iteration `i` on is of the `--file` path. */
  lemma {:induction false} LoopUploadsOnlyFile(i: nat, n: int, gen: nat -> Credentials, opts: Options, disk: Disk, faults: nat -> Fault, path: string)
    requires opts.file == Some(path)
    ensures UploadsOnly(LoopFrom(i, n, gen, opts, disk, faults).trace, path)
    decreases Remaining(i, n)
  {
    if i < n {
      var it := Iteration(i, gen, opts, disk, faults(i));
      IterationUploadsOnlyFile(i, gen, opts, disk, faults(i), path);
      if it.outcome.Returned? {
        LoopUploadsOnlyFile(i + 1, n, gen, opts, disk, faults, path);
        UploadsOnlyConcat(it.trace, LoopFrom(i + 1, n, gen, opts, disk, faults).trace, path);
      }
    }
  }

  /** The batch loop zips nothing: a directory given as `--file` is never
      archived, and every upload, in every iteration, is of the `--file` path
      itself, so a directory reaches `getsize` and `upload_file` unchanged. */
  lemma LoopNeverArchives(n: int, gen: nat -> Credentials, opts: Options, disk: Disk, faults: nat -> Fault)
    ensures var t := LoopRegistrations(n, gen, opts, disk, faults).trace;
      NoArchive(t) && (opts.file.Some? ==> UploadsOnly(t, opts.file.value))
  {
    LoopHasNoArchive(0, n, gen, opts, disk, faults);
    if opts.file.Some? {
      LoopUploadsOnlyFile(0, n, gen, opts, disk, faults, opts.file.value);
    }
  }
}

=== FILE: strings.dfy ===
/** Text helpers shared by the model: the parts of Python's `str` API the core
    uses (`strip`, `rstrip`, `split`, substring search), over `string = seq<char>`. */
module Strings {

  datatype Option<T> = None | Some(value: T)

  /** The characters Python's `str.isspace()` accepts; `str.strip()` with no
      argument removes exactly these from both ends. */
  const Whitespace: set<char> :=
    {' ', '\t', '\n', '\r', '\U{B}', '\U{C}', '\U{1C}', '\U{1D}', '\U{1E}', '\U{1F}',
     '\U{85}', '\U{A0}', '\U{1680}', '\U{2000}', '\U{2001}', '\U{2002}', '\U{2003}',
     '\U{2004}', '\U{2005}', '\U{2006}', '\U{2007}', '\U{2008}', '\U{2009}', '\U{200A}',
     '\U{2028}', '\U{2029}', '\U{202F}', '\U{205F}', '\U{3000}'}

  /** True when every character of `s` belongs to `chars`. */
  predicate AllIn(s: string, chars: set<char>)
  {
    forall i :: 0 <= i < |s| ==> s[i] in chars
  }

  /** `s.rstrip(chars)`: the longest prefix of `s` that does not end in one of `chars`. */
  function RStrip(s: string, chars: set<char>): (r: string)
    ensures r <= s
    ensures r == [] || r[|r| - 1] !in chars
    ensures AllIn(s[|r|..], chars)
    decreases |s|
  {
    if |s| > 0 && s[|s| - 1] in chars then
      var r := RStrip(s[..|s| - 1], chars);
      assert s[|r|..] == s[..|s| - 1][|r|..] + [s[|s| - 1]];
      r
    else
      s
  }

  /** `s.lstrip(chars)`: the longest suffix of `s` that does not start with one of `chars`. */
  function LStrip(s: string, chars: set<char>): (r: string)
    ensures |r| <= |s| && r == s[|s| - |r|..]
    ensures r == [] || r[0] !in chars
    ensures AllIn(s[..|s| - |r|], chars)
    decreases |s|
  {
    if |s| > 0 && s[0] in chars then
      var r := LStrip(s[1..], chars);
      forall i | 0 <= i < |s| - |r|
        ensures s[i] in chars
      {
        if i > 0 {
          assert s[i] == s[1..][..|s| - 1 - |r|][i - 1];
        }
      }
      r
    else
      s
  }

  /** `s.strip(chars)`: both ends trimmed. */
  function Strip(s: string, chars: set<char>): string
  {
    LStrip(RStrip(s, chars), chars)
  }

  /** The characterisation of `rstrip`: a prefix of `s` that does not end in `chars`
      and after which only `chars` follow is unique, and it is what RStrip returns. */
  lemma RStripUnique(s: string, chars: set<char>, r: string)
    requires r <= s
    requires r == [] || r[|r| - 1] !in chars
    requires AllIn(s[|r|..], chars)
    ensures r == RStrip(s, chars)
  {
  }

  /** A string strips to nothing exactly when it consists only of the stripped characters. */
  lemma StripEmptyIff(s: string, chars: set<char>)
    ensures Strip(s, chars) == [] <==> AllIn(s, chars)
  {
  }

  /** True when `pat` appears in `s` starting at position `i`. */
  predicate OccursAt(s: string, pat: string, i: nat)
  {
    i + |pat| <= |s| && s[i..i + |pat|] == pat
  }

  /** The first position at or after `from` where `pat` appears (`s.find(pat, from)`). */
  function IndexFrom(s: string, pat: string, from: nat): (r: Option<nat>)
    ensures r.Some? ==> from <= r.value && OccursAt(s, pat, r.value)
    ensures r.Some? ==> forall j :: from <= j < r.value ==> !OccursAt(s, pat, j)
    ensures r.None? ==> forall j :: from <= j ==> !OccursAt(s, pat, j)
    decreases |s| - from
  {
    if from + |pat| > |s| then None
    else if OccursAt(s, pat, from) then Some(from)
    else IndexFrom(s, pat, from + 1)
  }

  /** An occurrence inside `s[..k]` is an occurrence inside `s`. */
  lemma OccursInPrefix(s: string, pat: string, k: nat, j: nat)
    requires k <= |s|
    requires OccursAt(s[..k], pat, j)
    ensures OccursAt(s, pat, j)
  {
    assert s[..k][j..j + |pat|] == s[j..j + |pat|];
  }

  /** `s.split(sep)` for a non-empty separator: the pieces between the
      non-overlapping, left-to-right occurrences of `sep`. */
  function Split(s: string, sep: string): (parts: seq<string>)
    requires |sep| > 0
    ensures |parts| >= 1
    decreases |s|
  {
    match IndexFrom(s, sep, 0)
    case None => [s]
    case Some(i) => [s[..i]] + Split(s[i + |sep|..], sep)
  }

  /** `sep.join(parts)`. */
  function Join(parts: seq<string>, sep: string): string
    requires |parts| >= 1
  {
    if |parts| == 1 then parts[0] else parts[0] + sep + Join(parts[1..], sep)
  }

  /** One step of Split: the piece before the first separator, then the
      pieces of what follows it. */
  lemma SplitStep(s: string, sep: string, i: nat)
    requires |sep| > 0
    requires IndexFrom(s, sep, 0) == Some(i)
    ensures i + |sep| <= |s|
    ensures Split(s, sep) == [s[..i]] + Split(s[i + |sep|..], sep)
  {
  }

  /** Splitting loses nothing: joining the pieces back with the separator gives the text. */
  lemma {:induction false} SplitJoin(s: string, sep: string)
    requires |sep| > 0
    ensures Join(Split(s, sep), sep) == s
    decreases |s|
  {
    match IndexFrom(s, sep, 0)
    case None =>
    case Some(i) =>
      var rest := s[i + |sep|..];
      SplitJoin(rest, sep);
      SplitStep(s, sep, i);
      var parts := Split(s, sep);
      assert parts[0] == s[..i] && parts[1..] == Split(rest, sep);
      assert Join(parts, sep) == s[..i] + sep + Join(Split(rest, sep), sep);
      assert OccursAt(s, sep, i);
      assert s == s[..i] + s[i..i + |sep|] + rest;
  }

  /** No piece of a split contains the separator. */
  lemma {:induction false} SplitPiecesAvoidSeparator(s: string, sep: string)
    requires |sep| > 0
    ensures var parts := Split(s, sep);
      forall k, j :: 0 <= k < |parts| ==> !OccursAt(parts[k], sep, j)
    decreases |s|
  {
    match IndexFrom(s, sep, 0)
    case None =>
    case Some(i) =>
      var rest := s[i + |sep|..];
      SplitPiecesAvoidSeparator(rest, sep);
      SplitStep(s, sep, i);
      forall j | OccursAt(s[..i], sep, j)
        ensures false
      {
        OccursInPrefix(s, sep, i, j);
      }
  }
}

=== FILE: upload_gate.dfy ===
/** The size check `register` applies before uploading the `--file` argument. */
module UploadGate {
  import opened Strings

  /** 5e9 bytes: from here on the upload is announced as exceeding the
      provider's 5 GB per-address transfer allowance. */
  const WarnBytes: nat := 5_000_000_000

  /** 2e10 bytes: sizes from here on are refused. */
  const LimitBytes: nat := 20_000_000_000

  /** What `os.path.getsize` finds at the upload path. */
  datatype FileStat = Missing | Present(size: nat)

  /** What `register` does with the upload path.
      GetsizeRaises: `getsize` throws before the existence test is reached.
      ReportNotFound: "File not found." is printed and nothing is uploaded.
      Attempt(warn): the upload is started, preceded by the 5 GB warning when `warn`. */
  datatype Decision = GetsizeRaises | ReportNotFound | Attempt(warn: bool)

  function Decide(stat: FileStat): (d: Decision)
    ensures d.GetsizeRaises? <==> stat.Missing?
    ensures d.Attempt? <==> stat.Present? && 0 < stat.size < LimitBytes
    ensures d.ReportNotFound? <==> stat.Present? && (stat.size == 0 || LimitBytes <= stat.size)
    ensures d.Attempt? && d.warn <==> stat.Present? && WarnBytes <= stat.size < LimitBytes
  {
    match stat
    case Missing => GetsizeRaises
    case Present(size) =>
      if 0 < size < LimitBytes then Attempt(size >= WarnBytes) else ReportNotFound
  }

  /** The rule the size check is meant to follow: a path that does not exist
      is reported, not crashed on; sizes outside (0, 2e10) are refused; from
      5e9 on the upload is attempted with a warning; otherwise it is attempted. */
  datatype Verdict = Reject | AttemptPlain | AttemptWithWarning

  function IntendedVerdict(present: bool, size: int): Verdict
  {
    if !present || size <= 0 || size >= LimitBytes then Reject
    else if size >= WarnBytes then AttemptWithWarning
    else AttemptPlain
  }

  /** How a decision of `register` reads as a verdict of the intended rule; a raise has none. */
  function AsVerdict(d: Decision): Option<Verdict>
  {
    match d
    case GetsizeRaises => None
    case ReportNotFound => Some(Reject)
    case Attempt(warn) => Some(if warn then AttemptWithWarning else AttemptPlain)
  }

  /** On an existing file `register` follows the intended rule at every size;
      on a missing file the rule refuses, whereas `register` raises. */
  lemma DecideMatchesIntendedRule(stat: FileStat)
    ensures stat.Present? ==> AsVerdict(Decide(stat)) == Some(IntendedVerdict(true, stat.size))
    // The divergence: the rule refuses a missing path, `register` has no verdict for it.
    ensures stat.Missing? ==> AsVerdict(Decide(stat)) == None
  {
  }

  /** Among positive sizes a larger file is never treated more leniently: once
      a size warns, every larger size that is still uploaded warns too, and once
      a size is refused, every larger size is refused. Size 0 is the exception:
      it is refused while size 1 is uploaded. */
  lemma DecideMonotone(small: nat, large: nat)
    requires 0 < small <= large
    ensures Decide(Present(small)) == Attempt(true) && Decide(Present(large)).Attempt? ==> Decide(Present(large)) == Attempt(true)
    ensures Decide(Present(small)).ReportNotFound? ==> Decide(Present(large)).ReportNotFound?
  {
  }
}
